=== FILE: README.md ===
# Activity observer model

A Dafny model of the activity-record pipeline of a Laravel application. The
pipeline lives in `ActivityObserver`. On each Eloquent lifecycle event
(`created`, `updated`, `deleted`, `restored`) the observer builds one activity
record and queues it for delivery to Elasticsearch. A record holds the
sanitised attributes, a field-level diff, the acting user, the request or
console context, some metadata and a de-duplicated tag list.

Everything the observer reads from its surroundings is a parameter:

- the configuration lists and flags;
- the three authentication guards;
- the running-in-console flag and the optional request object;
- the clock reading (hour, ISO weekday, timestamp text);
- the generated UUIDs.

With those as inputs, every step is a pure function over immutable datatypes.
PHP strings are byte strings, modelled as `seq<char>` with one element per
byte. PHP's ordered arrays are sequences of key/value entries.

Modules, in dependency order:

| file | module | what it holds |
|---|---|---|
| `seqs.dfy` | `Seqs` | distinctness, order-preserving subsequences, first-occurrence de-duplication (`array_unique`) |
| `text.dfy` | `Text` | substring search (`str_contains`), `strtolower`, integer-to-text casts and their inverse |
| `values.dfy` | `Values` | the attribute value type, ordered attribute arrays, keyed lookup, entities |
| `redactor.dfy` | `Redactor` | `sanitizeAttributes` |
| `formatter.dfy` | `Formatter` | `formatValue` |
| `diff.dfy` | `Diff` | `shouldIgnoreField`, `getModelChanges` and its three builders |
| `actors.dfy` | `Actors` | `getAuthenticatedUserInfo` |
| `tags.dfy` | `Tags` | `generateTags` |
| `context.dfy` | `Context` | `getRequestContext` |
| `observer.dfy` | `Observer` | the hooks, `logActivity`, `shouldSkipLogging`, `buildActivityData`, `getMetadata` |

Two behaviours of the code weaken the masking a reader would expect. Both are
modelled as written:

- **Long text defeats masking.** Masking a sensitive key and cutting a
  string longer than 10000 bytes both test the original value. The cut is
  written after the mask, so it wins. A large secret therefore keeps its
  first 1000 bytes (`Redactor.SensitiveExposure`,
  `Redactor.LargeSecretIsNotMasked`).
- **Updates are not sanitised.** The `updated` diff never calls the
  sanitiser, so a changed `secret` or `ssn` is stored in clear text
  (`Diff.UpdatedKeepsPlaintext`, `Diff.SecretUpdateIsUnmasked`).

One might expect exactly one of `console` and `web` among the tags. The code
does not guarantee it, because the environment name and the event name go into
the same list. It holds only when neither of them is itself `console` or `web`
(`Tags.ExactlyOneSourceTag`). An environment named `web` gives a console run
both tags (`Tags.SourceTagCollision`).

The same holds for the actor tag. One might expect `anonymous` to mean that
no user was resolved. That holds only when neither the environment nor the
event is `anonymous` or starts with `user_type:` (`Tags.ExactlyOneActorTag`).
An environment named `anonymous` gives a record with an authenticated vendor
both `anonymous` and `user_type:vendor` (`Tags.ActorTagCollision`).

## Model

| member | source | states |
|---|---|---|
| Redactor.SanitizeValue | app/Observers/ActivityObserver.php:88-102 | For one attribute: a string over 10000 bytes becomes its first 1000 bytes plus `... [TRUNCATED]`, even under a sensitive key; otherwise a sensitive key becomes `[REDACTED]`, a UUID becomes its text, and any other value is unchanged; no UUID object is ever left |
| Redactor.TruncateLarge | app/Observers/ActivityObserver.php:100-101 | The replacement for large text is 1015 bytes: the original's first 1000 bytes followed by the truncation marker |
| Redactor.Sanitize | app/Observers/ActivityObserver.php:81-106 | The same keys in the same order; per position, the large-text, masked, UUID-to-text or unchanged outcome according to the original value and key; no UUID object remains |
| Redactor.SensitiveExposure | app/Observers/ActivityObserver.php:95-101 | Under a sensitive key the result is the marker, or the original's first 1000 bytes plus the truncation marker; masking is not absolute |
| Redactor.LargeSecretIsNotMasked | app/Observers/ActivityObserver.php:95-101 | A 10001-byte password under the fallback list is not masked, and its first 1000 bytes survive |
| Redactor.FallbackListOmitsSocialSecurityNumber | app/Observers/ActivityObserver.php:83-86 | `social_security_number` is masked under the shipped configuration's list but passes unchanged under the in-code fallback list |
| Redactor.SanitizeIdempotent | app/Observers/ActivityObserver.php:81-106 | Sanitising twice equals sanitising once, provided no sensitive key holds large text and no UUID text is large |
| Diff.ShouldIgnoreField | app/Observers/ActivityObserver.php:167-172 | A field is ignored exactly when it is on the ignore list or contains `password` or `token` as a case-sensitive substring |
| Text.Contains | app/Observers/ActivityObserver.php:170-171 | `str_contains` as a scan: a needle at the start is found, and a needle longer than the string never is |
| Text.ContainsIsSubstring | app/Observers/ActivityObserver.php:170-171 | The scan used for `str_contains` answers true exactly when the needle occurs at some offset |
| Diff.RejectIgnored | app/Observers/ActivityObserver.php:128 | Keeps exactly the entries whose key is not ignored, as an order-preserving subsequence of the input |
| Diff.Emit | app/Observers/ActivityObserver.php:127-135 | The shared builder shape: at most one change per input entry, no ignored field, and a change is emitted exactly for each non-ignored entry |
| Diff.CreatedChanges | app/Observers/ActivityObserver.php:125-136 | One change per non-ignored attribute, from null to the formatted sanitised value and nothing else; never longer than the attributes |
| Diff.DeletedChanges | app/Observers/ActivityObserver.php:138-149 | One change per non-ignored original attribute, from the formatted sanitised value to null and nothing else; never longer than the original |
| Diff.UpdatedChanges | app/Observers/ActivityObserver.php:151-165 | One change per non-ignored changed field, from the formatted original value (null when the field has none) to the formatted new value, with no sanitising |
| Diff.ModelChanges | app/Observers/ActivityObserver.php:108-123 | Dispatches on the event name: `created` gives the created diff of the current attributes, `deleted` the deleted diff of the original attributes, `updated` the updated diff of the change set, and any other name none. Created changes have null `before`, deleted ones null `after`, and no change names an ignored field or one containing `password` or `token` |
| Diff.CreatedKeepsOrder | app/Observers/ActivityObserver.php:125-136 | The created diff lists its fields in attribute order |
| Diff.DeletedKeepsOrder | app/Observers/ActivityObserver.php:138-149 | The deleted diff lists its fields in the order of the original attributes |
| Diff.UpdatedKeepsOrder | app/Observers/ActivityObserver.php:151-165 | The updated diff lists its fields in the order of the change set |
| Diff.CreatedFieldsDistinct | app/Observers/ActivityObserver.php:125-136 | With unique attribute keys, no field appears twice in the created diff |
| Diff.DeletedFieldsDistinct | app/Observers/ActivityObserver.php:138-149 | With unique original keys, no field appears twice in the deleted diff |
| Diff.UpdatedFieldsDistinct | app/Observers/ActivityObserver.php:151-165 | With unique changed keys, no field appears twice in the updated diff |
| Diff.UpdatedKeepsPlaintext | app/Observers/ActivityObserver.php:151-165 | A changed, non-ignored short string reaches the updated diff verbatim, whatever the sensitive list says |
| Diff.SecretUpdateIsUnmasked | app/Observers/ActivityObserver.php:151-165 | Under the shipped configuration, an update of `secret` is recorded in clear text although `secret` is sensitive |
| Diff.StatusUpdateScenario | app/Observers/ActivityObserver.php:151-165 | Changing `status` from draft to published, with the title untouched, yields exactly that one change |
| Diff.CreatedPostScenario | app/Observers/ActivityObserver.php:125-136 | A created post with title, content and password reports title and content only, whether or not the ignore list names `password`, provided it names neither `title` nor `content` and both values are at most 1000 bytes and neither key is sensitive |
| Values.Lookup | app/Observers/ActivityObserver.php:160 | The original value under the field's key, or null when the original attributes have no such key |
| Formatter.FormatValue | app/Observers/ActivityObserver.php:174-195 | Null stays null; booleans become `true`/`false`; encoded arrays and objects are never shortened; strings over 1000 bytes become their first 1000 bytes plus `...` (1003 bytes); integers and short strings are unchanged |
| Formatter.FormatIdempotentOnStrings | app/Observers/ActivityObserver.php:189-194 | Formatting a string twice is the same as formatting it once |
| Formatter.FormatIdempotent | app/Observers/ActivityObserver.php:174-195 | Formatting is idempotent on every value whose encoding fits the limit |
| Formatter.LongCompositeNotIdempotent | app/Observers/ActivityObserver.php:185-192 | A long encoding is kept whole by one pass and shortened by a second pass |
| Formatter.SanitiseThenFormatLargeText | app/Observers/ActivityObserver.php:100-101 | A large text in a created or deleted diff is stored as its first 1000 bytes plus `...`; the sanitiser's truncation marker does not survive formatting |
| Seqs.Dedup | app/Observers/ActivityObserver.php:255 | `array_unique`: no duplicates, the same elements, no longer than the input, and the first element kept first |
| Seqs.DedupKeepsFirstOccurrenceOrder | app/Observers/ActivityObserver.php:255 | The kept elements appear in the order of their first occurrences |
| Seqs.DedupOfDistinct | app/Observers/ActivityObserver.php:255 | A list without duplicates is left unchanged |
| Tags.BasenameStart | app/Observers/ActivityObserver.php:236 | Finds where the part of the class name after its last backslash begins |
| Tags.ClassBasenameIsLastSegment | app/Observers/ActivityObserver.php:236 | `class_basename` yields the longest suffix of the class name without a backslash |
| Text.Lower | app/Observers/ActivityObserver.php:236 | `strtolower` keeps the length, turns each ASCII capital into the letter at the same place of the lower-case alphabet, and changes no other byte |
| Tags.ClassBasename | app/Observers/ActivityObserver.php:236 | `class_basename` is never longer than the class name |
| Tags.RawTags | app/Observers/ActivityObserver.php:233-253 | The tag list before de-duplication holds seven tags: the environment, then the event, and so on. Its actor tag is `anonymous` exactly when no user is resolved, and its source tag is `console` exactly on a console run |
| Tags.GenerateTags | app/Observers/ActivityObserver.php:231-256 | No duplicates; between one and seven tags, the environment first; environment, event, model, hour, day, actor and source tags all present, and nothing else |
| Tags.TagsInFirstOccurrenceOrder | app/Observers/ActivityObserver.php:233-255 | The tags come out in the order in which they first occur in the raw list |
| Tags.TimeTagsReadBack | app/Observers/ActivityObserver.php:241-242 | The hour tag is `hour:` plus two digits that read back as the hour; the day tag is `day:` plus the weekday digit |
| Text.TwoDigits | app/Observers/ActivityObserver.php:241 | The zero-padded hour is exactly two digits and reads back as the hour |
| Tags.ExactlyOneSourceTag | app/Observers/ActivityObserver.php:253-255 | When neither the environment nor the event is `console` or `web`, `console` is present exactly on a console run and `web` exactly otherwise |
| Tags.SourceTagCollision | app/Observers/ActivityObserver.php:233-255 | An environment named `web` gives a console run both source tags |
| Tags.ExactlyOneActorTag | app/Observers/ActivityObserver.php:244-250 | When neither the environment nor the event is `anonymous` or starts with `user_type:`, `anonymous` is present exactly when no guard is authenticated, and every `user_type:` tag names the resolved actor's type |
| Tags.ActorTagCollision | app/Observers/ActivityObserver.php:233-250 | An environment named `anonymous` gives a record with an authenticated vendor both `anonymous` and `user_type:vendor` |
| Actors.FormatVendor | app/Observers/ActivityObserver.php:271-278 | The vendor record has type `vendor`, an id that reads back to the account's key, and the company and contact attributes |
| Actors.FormatModerator | app/Observers/ActivityObserver.php:279-286 | The moderator record has type `moderator`, an id that reads back to the account's key, and the nickname and level attributes |
| Actors.FormatSupportAgent | app/Observers/ActivityObserver.php:287-294 | The support-agent record has type `support_agent`, an id that reads back to the account's key, and the department and shift attributes |
| Actors.GuardResults | app/Observers/ActivityObserver.php:270-298 | One result per guard, in the order vendors, moderators, support agents. A guard yields a user exactly when its check passes, and that user has the guard's own type |
| Actors.FirstAuthenticated | app/Observers/ActivityObserver.php:297-302 | The guard loop yields null exactly when no guard is authenticated, and otherwise the result of the first authenticated guard |
| Actors.ResolveActor | app/Observers/ActivityObserver.php:269-303 | Vendors first, then moderators, then support agents, each formatted with an id that reads back to the account's integer or string key and with its own fields; null when none is authenticated |
| Actors.ResolvedActorIdentity | app/Observers/ActivityObserver.php:269-303 | The recorded type names the guard that authenticated, and the recorded id reads back to that account's integer or string key |
| Actors.HigherGuardWins | app/Observers/ActivityObserver.php:297-301 | Once the vendor guard is authenticated, the lower guards make no difference |
| Values.KeyText | app/Observers/ActivityObserver.php:65 | The string cast of a key: a string key is kept, and an integer key becomes canonical decimal text that reads back to the number |
| Values.ReadsBackOnlyAsKeyText | app/Observers/ActivityObserver.php:65 | A text reads back as a key exactly when it is the key's string cast, so the recorded id determines the key and the key determines the id |
| Text.IntString | app/Observers/ActivityObserver.php:273 | The `(string)` cast of an integer is canonical decimal text (no leading zero, no `-0`) and starts with `-` exactly when the integer is negative |
| Text.CanonicalDecimalIsIntString | app/Observers/ActivityObserver.php:273 | Every canonical decimal text is the cast of the number it denotes, so the cast has no other form |
| Text.IntStringRoundTrip | app/Observers/ActivityObserver.php:273 | The `(string)` cast of an integer id parses back to the same integer |
| Text.IntStringInjective | app/Observers/ActivityObserver.php:273 | Different integer ids give different strings |
| Context.CollectContext | app/Observers/ActivityObserver.php:197-216 | Without a request: the console variant with `argv[1]` or `unknown`. With one: the web variant, whose request id is the header or else the fresh UUID, with the session id and the other fields copied from the request |
| Observer.CollectMetadata | app/Observers/ActivityObserver.php:221-230 | The environment is the configured one. The version is the configured one, or `1.0.0` when none is configured. The PHP and framework versions are the runtime's, and the transaction id is always null |
| Observer.SensitiveFields | app/Observers/ActivityObserver.php:83-86 | The sensitive-field list is the configured one, or the in-code fallback list when none is configured |
| Observer.IgnoreFields | app/Observers/ActivityObserver.php:111 | The ignore list is the configured one, or empty when none is configured |
| Observer.LogsConsoleEvents | app/Observers/ActivityObserver.php:52 | Console logging is the configured flag, or off when none is configured |
| Observer.ShouldSkipLogging | app/Observers/ActivityObserver.php:49-58 | Only a console run is ever skipped. It is skipped when the console-logging flag is off or not configured, and never when the flag is on |
| Observer.BuildActivityData | app/Observers/ActivityObserver.php:60-79 | The record carries the fresh id, the event, the class, a model id that reads back to the entity's key, and the resolved actor. Its attributes are the sanitised attributes: the entity's keys with no UUID object left, large text cut, and every other value under a sensitive key masked. Its diff is the event's diff, with no change naming an ignored field. Its context, metadata and timestamp are those of the run. Its tags are the generated tags of the event, class, clock, actor and console flag: distinct, and including the event, environment, actor and source tags. Its context is the console variant exactly when no request is present |
| Observer.LogActivity | app/Observers/ActivityObserver.php:33-58 | No job on a console run with console logging off; otherwise exactly one job, on the configured queue, carrying the record built for this event, entity and run, with the fresh id |
| Observer.Observe | app/Observers/ActivityObserver.php:11-28 | Each hook dispatches at most one job, and its record is the one built for the hook's own event |
| Observer.DispatchedChangesMatchHook | app/Observers/ActivityObserver.php:11-28 | In a dispatched record, created changes have null `before`, deleted changes null `after`, and a restored record has no changes |
| Observer.RecordActorMatchesTags | app/Observers/ActivityObserver.php:67-72 | When neither the environment nor the event is `anonymous` or starts with `user_type:`, the record's actor and its actor tag agree |
| Observer.ContextIgnoresConsoleFlag | app/Observers/ActivityObserver.php:199 | The context depends on whether a request is present, not on the console flag |
| Observer.ConsoleScenario | app/Observers/ActivityObserver.php:33-58 | A console run without a request or a user is dropped when console logging is off. When it is on, the run yields one record with the console context and the `console` and `anonymous` tags |

## Left out

- Queue delivery and the Elasticsearch job (`app/Jobs/SendActivityToElasticsearch.php`). These are I/O over a queue runtime and an external client. `LogActivity` returns the list of dispatched jobs instead.
- Index provisioning (`app/Console/Commands/LogActivityToElasticsearch.php`) and observer registration (`app/Providers/AppServiceProvider.php`). They are framework wiring and I/O with no logic of their own.
- The `Post` entity (`app/Model/Post.php`). It declares no behaviour; an entity is modelled generically as `Values.Entity`.
- `Str::uuid()`, `now()`, `request()`, `auth()`, `PHP_VERSION` and `app()->version()`. These are non-deterministic or foreign calls, so they are parameters: `FreshIds`, `Clock`, `Option<Request>`, `AuthState` and the two version strings of `Runtime`.
- `json_encode`. It is foreign, so an array or object value carries its encoding as an input (`Composite`). A UUID object encodes as its quoted text. A failed encoding (`false`) is not modelled.
- Floating-point attribute values. `formatValue` returns them unchanged, as it does integers, so they add nothing that `Int` does not show.
- `config('app.env')` and `config('activity_logging.queue')` have no in-code default, so either can be null. The model takes both as strings. A null environment would put a null tag into the list, and a null queue would select the default queue.
- `strtolower` is modelled with the behaviour of PHP 8.2 and later: only ASCII capitals change. Older versions also fold bytes according to the locale.
- Configuration values are taken as typed values. PHP's truthiness of a flag read from the environment (for example the text `"false"`) is not modelled.
- The three guards `vendors`, `moderators` and `support_agents` are assumed to be defined. When one is missing, `auth($guard)` throws `InvalidArgumentException` and the exception escapes the hook, so no record is built. `AuthState` always carries all three guards, and that failure is not modelled.
- PHP's loose comparison in `in_array` and PHP's conversion of numeric string keys to integers. Keys are modelled as strings compared by equality.
- The clock is read once per record. The source calls `now()` separately for the timestamp and the tags, and the two readings can straddle an hour boundary.
- `getRequestContext` decides on `request()` being falsy. In the framework that helper nearly always returns a request object, even on the console. The model keeps request presence as an input of its own, independent of the console flag.
- `array_unique` keeps the original indices, so the tag list can have gaps in its keys. The model returns the kept tags as a plain sequence.
- Tags.ClassBasename: its own contract states only the length bound. The full characterisation, the longest suffix without a backslash, is the separate lemma `Tags.ClassBasenameIsLastSegment`. That keeps the suffix equation out of every proof that mentions a tag.
- Tags.ClassBasenameIsLastSegment states the basename only for names as they occur. PHP's `basename` treatment of a trailing separator, and of `/` as a separator on some platforms, is not modelled.
- Formatter.FormatIdempotent does not cover an encoding longer than 1000 bytes. There idempotence fails, as `Formatter.LongCompositeNotIdempotent` shows.
- Redactor.SanitizeIdempotent excludes large text under a sensitive key. A second pass would mask the text that the first pass cut.
- Other configuration keys (`enabled`, `models`, the `elasticsearch` block) are not read by the observer, and are not modelled.

=== FILE: actors.dfy ===
/** The actor resolver: the first authenticated guard, in a fixed priority
    order, decides who performed the action. Modelled on
    `ActivityObserver::getAuthenticatedUserInfo`. */
module Actors {
  import opened Values

  /** The user records each guard can hold. The id is an integer or a string
      primary key; the other attribute values are opaque. */
  datatype VendorAccount = VendorAccount(id: EntityKey, companyName: Value, contactEmail: Value)
  datatype ModeratorAccount = ModeratorAccount(id: EntityKey, nickname: Value, moderatorLevel: Value)
  datatype SupportAgentAccount = SupportAgentAccount(id: EntityKey, department: Value, shift: Value)

  /** The state of the three guards: `Some` when the guard's check passes. */
  datatype AuthState = AuthState(
    vendors: Option<VendorAccount>,
    moderators: Option<ModeratorAccount>,
    supportAgents: Option<SupportAgentAccount>)

  /** The actor as recorded: a stringified id, a type tag, and the
      kind-specific attributes. */
  datatype UserInfo =
    | VendorInfo(id: string, company: Value, contact: Value)
    | ModeratorInfo(id: string, nickname: Value, level: Value)
    | SupportAgentInfo(id: string, department: Value, shift: Value)
  {
    function Type(): string {
      match this
      case VendorInfo(_, _, _) => "vendor"
      case ModeratorInfo(_, _, _) => "moderator"
      case SupportAgentInfo(_, _, _) => "support_agent"
    }
  }

  /** The type each guard records, in the order the guards are consulted:
      vendors, moderators, support agents. */
  const GuardTypes: seq<string> := ["vendor", "moderator", "support_agent"]

  /** The vendors guard's formatter. */
  function FormatVendor(u: VendorAccount): (r: UserInfo)
    ensures r.Type() == GuardTypes[0] && ReadsBackAs(r.id, u.id)
    ensures r.VendorInfo? && r.company == u.companyName && r.contact == u.contactEmail
  {
    VendorInfo(KeyText(u.id), u.companyName, u.contactEmail)
  }

  /** The moderators guard's formatter. */
  function FormatModerator(u: ModeratorAccount): (r: UserInfo)
    ensures r.Type() == GuardTypes[1] && ReadsBackAs(r.id, u.id)
    ensures r.ModeratorInfo? && r.nickname == u.nickname && r.level == u.moderatorLevel
  {
    ModeratorInfo(KeyText(u.id), u.nickname, u.moderatorLevel)
  }

  /** The support agents guard's formatter. */
  function FormatSupportAgent(u: SupportAgentAccount): (r: UserInfo)
    ensures r.Type() == GuardTypes[2] && ReadsBackAs(r.id, u.id)
    ensures r.SupportAgentInfo? && r.department == u.department && r.shift == u.shift
  {
    SupportAgentInfo(KeyText(u.id), u.department, u.shift)
  }

  /** What each guard yields, in the order the guards are consulted: a user
      exactly when that guard's check passes, of that guard's type. */
  function GuardResults(auth: AuthState): (rs: seq<Option<UserInfo>>)
    ensures |rs| == |GuardTypes|
    ensures rs[0].Some? <==> auth.vendors.Some?
    ensures rs[1].Some? <==> auth.moderators.Some?
    ensures rs[2].Some? <==> auth.supportAgents.Some?
    ensures forall i :: 0 <= i < |rs| && rs[i].Some? ==> rs[i].value.Type() == GuardTypes[i]
  {
    [ if auth.vendors.Some? then Some(FormatVendor(auth.vendors.value)) else None,
      if auth.moderators.Some? then Some(FormatModerator(auth.moderators.value)) else None,
      if auth.supportAgents.Some? then Some(FormatSupportAgent(auth.supportAgents.value)) else None ]
  }

  /** The loop over the guards: the first authenticated one wins. */
  function FirstAuthenticated(results: seq<Option<UserInfo>>): (r: Option<UserInfo>)
    ensures r.None? <==> forall i :: 0 <= i < |results| ==> results[i].None?
    ensures r.Some? ==> exists i :: 0 <= i < |results| && results[i] == r
                                  && forall j :: 0 <= j < i ==> results[j].None?
    decreases |results|
  {
    if |results| == 0 then None
    else if results[0].Some? then results[0]
    else FirstAuthenticated(results[1..])
  }

  /** `getAuthenticatedUserInfo`: vendors first, then moderators, then
      support agents; null when no guard is authenticated. */
  function ResolveActor(auth: AuthState): (r: Option<UserInfo>)
    ensures r.None? <==> auth.vendors.None? && auth.moderators.None? && auth.supportAgents.None?
    ensures auth.vendors.Some? ==>
      r == Some(VendorInfo(KeyText(auth.vendors.value.id), auth.vendors.value.companyName,
                           auth.vendors.value.contactEmail))
    ensures auth.vendors.None? && auth.moderators.Some? ==>
      r == Some(ModeratorInfo(KeyText(auth.moderators.value.id), auth.moderators.value.nickname,
                              auth.moderators.value.moderatorLevel))
    ensures auth.vendors.None? && auth.moderators.None? && auth.supportAgents.Some? ==>
      r == Some(SupportAgentInfo(KeyText(auth.supportAgents.value.id), auth.supportAgents.value.department,
                                 auth.supportAgents.value.shift))
  {
    FirstOfThree(GuardResults(auth));
    FirstAuthenticated(GuardResults(auth))
  }

  /** Over three guards the loop picks the first `Some`. */
  lemma FirstOfThree(rs: seq<Option<UserInfo>>)
    requires |rs| == 3
    ensures FirstAuthenticated(rs) == if rs[0].Some? then rs[0] else if rs[1].Some? then rs[1] else rs[2]
  {
    assert rs[1..][1..] == [rs[2]];
    assert [rs[2]][1..] == [];
  }

  /** The recorded type names the guard that authenticated the actor, and the
      recorded id reads back to that account's key. */
  lemma ResolvedActorIdentity(auth: AuthState)
    requires ResolveActor(auth).Some?
    ensures var u := ResolveActor(auth).value;
      && u.Type() in GuardTypes
      && (u.Type() == "vendor" <==> auth.vendors.Some?)
      && (u.Type() == "vendor" ==> ReadsBackAs(u.id, auth.vendors.value.id))
      && (u.Type() == "moderator" ==> ReadsBackAs(u.id, auth.moderators.value.id))
      && (u.Type() == "support_agent" ==> ReadsBackAs(u.id, auth.supportAgents.value.id))
  {
    var u := ResolveActor(auth).value;
    if auth.vendors.Some? {
      assert u == FormatVendor(auth.vendors.value);
    } else if auth.moderators.Some? {
      assert u == FormatModerator(auth.moderators.value);
    } else {
      assert u == FormatSupportAgent(auth.supportAgents.value);
    }
  }

  /** Priority: once a guard is authenticated, what the lower-priority
      guards report makes no difference. */
  lemma HigherGuardWins(auth: AuthState, moderators: Option<ModeratorAccount>,
                        supportAgents: Option<SupportAgentAccount>)
    requires auth.vendors.Some?
    ensures ResolveActor(AuthState(auth.vendors, moderators, supportAgents)) == ResolveActor(auth)
  {
  }
}

=== FILE: context.dfy ===
/** The request-or-console context of an activity record. Modelled on
    `ActivityObserver::getRequestContext`. Whether a request object is
    present is an input of its own, independent of the console flag the tags
    use. */
module Context {
  import opened Values

  /** What the current HTTP request exposes. `session` is `None` when the
      request has no session; `routeName` is `None` when there is no route or
      the route is unnamed. */
  datatype Request = Request(
    ip: Option<string>,
    userAgent: Option<string>,
    requestIdHeader: Option<string>,
    session: Option<string>,
    routeName: Option<string>,
    httpMethod: string,
    fullUrl: string,
    referer: Option<string>)

  datatype RequestContext =
    | WebContext(
        ip: Option<string>,
        userAgent: Option<string>,
        requestId: string,
        sessionId: Option<string>,
        route: Option<string>,
        httpMethod: string,
        url: string,
        referrer: Option<string>)
    | ConsoleContext(source: string, command: string)

  const UnknownCommand: string := "unknown"

  /** `getRequestContext`. Without a request, the console variant names the
      first command-line argument after the script, or `unknown`. With one,
      the request id comes from the `X-Request-ID` header, else from a freshly
      generated UUID supplied as `freshRequestId`. */
  function CollectContext(request: Option<Request>, argv: seq<string>, freshRequestId: string): (c: RequestContext)
    ensures c.ConsoleContext? <==> request.None?
    ensures c.ConsoleContext? ==> c.source == "console"
    ensures c.ConsoleContext? && |argv| >= 2 ==> c.command == argv[1]
    ensures c.ConsoleContext? && |argv| < 2 ==> c.command == UnknownCommand
    ensures c.WebContext? && request.value.requestIdHeader.Some? ==> c.requestId == request.value.requestIdHeader.value
    ensures c.WebContext? && request.value.requestIdHeader.None? ==> c.requestId == freshRequestId
    ensures c.WebContext? ==> c.sessionId == request.value.session
    ensures c.WebContext? ==>
      && c.ip == request.value.ip && c.userAgent == request.value.userAgent
      && c.route == request.value.routeName && c.httpMethod == request.value.httpMethod
      && c.url == request.value.fullUrl && c.referrer == request.value.referer
  {
    match request
    case None => ConsoleContext("console", if |argv| > 1 then argv[1] else UnknownCommand)
    case Some(r) =>
      WebContext(
        r.ip, r.userAgent,
        if r.requestIdHeader.Some? then r.requestIdHeader.value else freshRequestId,
        r.session, r.routeName, r.httpMethod, r.fullUrl, r.referer)
  }
}

=== FILE: diff.dfy ===
/** The per-event diff builders: an ordered list of field changes for a
    lifecycle event. Modelled on `getModelChanges` and its three helpers, and
    on `shouldIgnoreField`. */
module Diff {
  import opened Seqs
  import opened Text
  import opened Values
  import opened Redactor
  import opened Formatter

  const CreatedEvent: string := "created"
  const UpdatedEvent: string := "updated"
  const DeletedEvent: string := "deleted"
  const RestoredEvent: string := "restored"

  /** The ignore list of the shipped configuration file; when none is
      configured the observer uses the empty list. */
  const ConfiguredIgnoreFields: seq<string> := [
    "updated_at", "created_at", "user_ip", "password", "remember_token"
  ]

  /** One field-level change. A null `before` or `after` is `Null`. */
  datatype FieldChange = FieldChange(field: string, before: Value, after: Value)

  function FieldOf(c: FieldChange): string {
    c.field
  }

  function Fields(cs: seq<FieldChange>): seq<string> {
    Map(cs, FieldOf)
  }

  /** `shouldIgnoreField`: listed, or containing `password` or `token` as a
      case-sensitive substring. */
  function ShouldIgnoreField(field: string, ignore: seq<string>): (b: bool)
    ensures b <==> field in ignore || HasSubstring(field, "password") || HasSubstring(field, "token")
  {
    ContainsIsSubstring(field, "password");
    ContainsIsSubstring(field, "token");
    field in ignore || Contains(field, "password") || Contains(field, "token")
  }

  /** The collection's `reject` step: drops ignored entries, keeps the order. */
  function RejectIgnored(a: Attrs, ignore: seq<string>): (k: Attrs)
    ensures |k| <= |a|
    ensures forall e :: e in k <==> e in a && !ShouldIgnoreField(e.key, ignore)
    ensures Subsequence(k, a)
    decreases |a|
  {
    if |a| == 0 then []
    else
      assert a == [a[0]] + a[1..];
      var rest := RejectIgnored(a[1..], ignore);
      if ShouldIgnoreField(a[0].key, ignore) then rest
      else
        assert ([a[0]] + rest)[1..] == rest;
        [a[0]] + rest
  }

  /** The shared shape of the three builders: reject the ignored fields,
      then map every remaining entry to a change naming its field. */
  function Emit(a: Attrs, ignore: seq<string>, change: Entry -> FieldChange): (r: seq<FieldChange>)
    requires forall e :: change(e).field == e.key
    ensures |r| <= |a|
    ensures forall c :: c in r ==> !ShouldIgnoreField(c.field, ignore)
    ensures forall c :: c in r <==>
      exists i :: 0 <= i < |a| && !ShouldIgnoreField(a[i].key, ignore) && c == change(a[i])
  {
    var kept := RejectIgnored(a, ignore);
    var r := Map(kept, change);
    MapMembership(kept, change);
    forall c | c in r
      ensures exists i :: 0 <= i < |a| && !ShouldIgnoreField(a[i].key, ignore) && c == change(a[i])
    {
      var e :| e in kept && c == change(e);
      var i :| 0 <= i < |a| && a[i] == e;
    }
    forall i | 0 <= i < |a| && !ShouldIgnoreField(a[i].key, ignore)
      ensures change(a[i]) in r
    {
      assert a[i] in kept;
    }
    r
  }

  /** The emitted fields appear in the order of the source array. */
  lemma EmitKeepsOrder(a: Attrs, ignore: seq<string>, change: Entry -> FieldChange)
    requires forall e :: change(e).field == e.key
    ensures Subsequence(Fields(Emit(a, ignore, change)), Keys(a))
  {
    var kept := RejectIgnored(a, ignore);
    assert Fields(Emit(a, ignore, change)) == Keys(kept);
    SubsequenceMap(kept, a, KeyOf);
  }

  function CreatedChange(e: Entry): FieldChange {
    FieldChange(e.key, Null, FormatValue(e.value))
  }

  function DeletedChange(e: Entry): FieldChange {
    FieldChange(e.key, FormatValue(e.value), Null)
  }

  function UpdatedChange(original: Attrs): Entry -> FieldChange {
    (e: Entry) => FieldChange(e.key, FormatValue(Lookup(original, e.key)), FormatValue(e.value))
  }

  /** `getCreatedChanges`: one change per non-ignored attribute, in attribute
      order, from nothing to the formatted sanitised value. */
  function CreatedChanges(attributes: Attrs, ignore: seq<string>, sensitive: seq<string>): (r: seq<FieldChange>)
    ensures |r| <= |attributes|
    ensures forall c :: c in r ==> c.before == Null && !ShouldIgnoreField(c.field, ignore)
    ensures forall c :: c in r <==>
      exists i :: 0 <= i < |attributes| && !ShouldIgnoreField(attributes[i].key, ignore)
        && c == FieldChange(attributes[i].key, Null,
                            FormatValue(SanitizeValue(attributes[i].key, attributes[i].value, sensitive)))
  {
    var clean := Sanitize(attributes, sensitive);
    assert forall i :: 0 <= i < |clean| ==>
      clean[i] == Entry(attributes[i].key, SanitizeValue(attributes[i].key, attributes[i].value, sensitive));
    Emit(clean, ignore, CreatedChange)
  }

  /** `getDeletedChanges`: one change per non-ignored original attribute, in
      order, from the formatted sanitised value to nothing. */
  function DeletedChanges(original: Attrs, ignore: seq<string>, sensitive: seq<string>): (r: seq<FieldChange>)
    ensures |r| <= |original|
    ensures forall c :: c in r ==> c.after == Null && !ShouldIgnoreField(c.field, ignore)
    ensures forall c :: c in r <==>
      exists i :: 0 <= i < |original| && !ShouldIgnoreField(original[i].key, ignore)
        && c == FieldChange(original[i].key,
                            FormatValue(SanitizeValue(original[i].key, original[i].value, sensitive)), Null)
  {
    var clean := Sanitize(original, sensitive);
    assert forall i :: 0 <= i < |clean| ==>
      clean[i] == Entry(original[i].key, SanitizeValue(original[i].key, original[i].value, sensitive));
    Emit(clean, ignore, DeletedChange)
  }

  /** `getUpdatedChanges`: one change per non-ignored changed field, in the
      order of the change set, from the formatted original value (null when
      the field has none) to the formatted new value. Nothing is sanitised. */
  function UpdatedChanges(changes: Attrs, original: Attrs, ignore: seq<string>): (r: seq<FieldChange>)
    ensures |r| <= |changes|
    ensures forall c :: c in r ==> !ShouldIgnoreField(c.field, ignore)
    ensures forall c :: c in r <==>
      exists i :: 0 <= i < |changes| && !ShouldIgnoreField(changes[i].key, ignore)
        && c == FieldChange(changes[i].key, FormatValue(Lookup(original, changes[i].key)),
                            FormatValue(changes[i].value))
    ensures forall c :: c in r && c.field !in Keys(original) ==> c.before == Null
  {
    Emit(changes, ignore, UpdatedChange(original))
  }

  /** `getModelChanges`: dispatch on the event name; `restored` and any other
      name yield no changes. No change ever names an ignored field. */
  function ModelChanges(event: string, m: Entity, ignore: seq<string>, sensitive: seq<string>): (r: seq<FieldChange>)
    ensures forall c :: c in r ==> !ShouldIgnoreField(c.field, ignore)
    ensures forall c :: c in r ==> !HasSubstring(c.field, "password") && !HasSubstring(c.field, "token")
    ensures event == CreatedEvent ==> |r| <= |m.attributes| && forall c :: c in r ==> c.before == Null
    ensures event == DeletedEvent ==> |r| <= |m.original| && forall c :: c in r ==> c.after == Null
    ensures event == UpdatedEvent ==> |r| <= |m.changes|
    ensures event != CreatedEvent && event != DeletedEvent && event != UpdatedEvent ==> r == []
    ensures event == CreatedEvent ==> r == CreatedChanges(m.attributes, ignore, sensitive)
    ensures event == DeletedEvent ==> r == DeletedChanges(m.original, ignore, sensitive)
    ensures event == UpdatedEvent ==> r == UpdatedChanges(m.changes, m.original, ignore)
  {
    if event == CreatedEvent then CreatedChanges(m.attributes, ignore, sensitive)
    else if event == DeletedEvent then DeletedChanges(m.original, ignore, sensitive)
    else if event == UpdatedEvent then UpdatedChanges(m.changes, m.original, ignore)
    else []
  }

  /** The created diff lists fields in attribute order. */
  lemma CreatedKeepsOrder(attributes: Attrs, ignore: seq<string>, sensitive: seq<string>)
    ensures Subsequence(Fields(CreatedChanges(attributes, ignore, sensitive)), Keys(attributes))
  {
    EmitKeepsOrder(Sanitize(attributes, sensitive), ignore, CreatedChange);
  }

  /** The deleted diff lists fields in the order of the original attributes. */
  lemma DeletedKeepsOrder(original: Attrs, ignore: seq<string>, sensitive: seq<string>)
    ensures Subsequence(Fields(DeletedChanges(original, ignore, sensitive)), Keys(original))
  {
    EmitKeepsOrder(Sanitize(original, sensitive), ignore, DeletedChange);
  }

  /** The updated diff lists fields in the order of the change set. */
  lemma UpdatedKeepsOrder(changes: Attrs, original: Attrs, ignore: seq<string>)
    ensures Subsequence(Fields(UpdatedChanges(changes, original, ignore)), Keys(changes))
  {
    EmitKeepsOrder(changes, ignore, UpdatedChange(original));
  }

  /** With unique attribute keys, no field is reported twice. */
  lemma CreatedFieldsDistinct(attributes: Attrs, ignore: seq<string>, sensitive: seq<string>)
    requires UniqueKeys(attributes)
    ensures Distinct(Fields(CreatedChanges(attributes, ignore, sensitive)))
  {
    CreatedKeepsOrder(attributes, ignore, sensitive);
    SubsequenceDistinct(Fields(CreatedChanges(attributes, ignore, sensitive)), Keys(attributes));
  }

  lemma DeletedFieldsDistinct(original: Attrs, ignore: seq<string>, sensitive: seq<string>)
    requires UniqueKeys(original)
    ensures Distinct(Fields(DeletedChanges(original, ignore, sensitive)))
  {
    DeletedKeepsOrder(original, ignore, sensitive);
    SubsequenceDistinct(Fields(DeletedChanges(original, ignore, sensitive)), Keys(original));
  }

  lemma UpdatedFieldsDistinct(changes: Attrs, original: Attrs, ignore: seq<string>)
    requires UniqueKeys(changes)
    ensures Distinct(Fields(UpdatedChanges(changes, original, ignore)))
  {
    UpdatedKeepsOrder(changes, original, ignore);
    SubsequenceDistinct(Fields(UpdatedChanges(changes, original, ignore)), Keys(changes));
  }

  /** The updated diff never runs the sanitiser: a changed, non-ignored field
      holding a short string reaches the record verbatim even when its name is
      on the sensitive list. */
  lemma UpdatedKeepsPlaintext(changes: Attrs, original: Attrs, ignore: seq<string>, i: nat)
    requires i < |changes| && !ShouldIgnoreField(changes[i].key, ignore)
    requires changes[i].value.Str? && |changes[i].value.s| <= FormatLimit
    ensures exists c :: c in UpdatedChanges(changes, original, ignore)
                     && c.field == changes[i].key && c.after == changes[i].value
  {
    var c := FieldChange(changes[i].key, FormatValue(Lookup(original, changes[i].key)),
                         FormatValue(changes[i].value));
    assert c in UpdatedChanges(changes, original, ignore);
  }

  /** Under the shipped configuration a changed `secret` is stored unmasked,
      although `secret` is a sensitive field. */
  lemma SecretUpdateIsUnmasked()
    ensures "secret" in ConfiguredSensitiveFields
    ensures UpdatedChanges([Entry("secret", Str("hunter2"))], [Entry("secret", Str("old"))], ConfiguredIgnoreFields)
         == [FieldChange("secret", Str("old"), Str("hunter2"))]
  {
    assert ConfiguredSensitiveFields[4] == "secret";
    MissingByteNotContained("secret", "password", 0);
    MissingByteNotContained("secret", "token", 1);
    UpdatedSingle(Entry("secret", Str("hunter2")), [Entry("secret", Str("old"))], ConfiguredIgnoreFields);
  }

  /** An update of `status` from draft to published, with other attributes
      untouched, yields exactly one change. */
  lemma StatusUpdateScenario(title: string)
    ensures UpdatedChanges([Entry("status", Str("published"))],
                           [Entry("title", Str(title)), Entry("status", Str("draft"))],
                           ConfiguredIgnoreFields)
         == [FieldChange("status", Str("draft"), Str("published"))]
  {
    MissingByteNotContained("status", "password", 0);
    MissingByteNotContained("status", "token", 1);
    var original := [Entry("title", Str(title)), Entry("status", Str("draft"))];
    assert Lookup(original, "status") == Str("draft");
    UpdatedSingle(Entry("status", Str("published")), original, ConfiguredIgnoreFields);
  }

  /** A change set of one kept field yields that field's single change. */
  lemma UpdatedSingle(e: Entry, original: Attrs, ignore: seq<string>)
    requires !ShouldIgnoreField(e.key, ignore)
    ensures UpdatedChanges([e], original, ignore)
         == [FieldChange(e.key, FormatValue(Lookup(original, e.key)), FormatValue(e.value))]
  {
    assert [e][1..] == [];
    assert RejectIgnored([e], ignore) == [e];
  }

  /** A created post reports its title and content but never its password,
      whether or not `password` is on the ignore list: the name itself
      contains `password`. */
  lemma CreatedPostScenario(title: string, content: string, password: string,
                            ignore: seq<string>, sensitive: seq<string>)
    requires |title| <= FormatLimit && |content| <= FormatLimit
    requires "title" !in ignore && "content" !in ignore
    requires "title" !in sensitive && "content" !in sensitive
    ensures CreatedChanges([Entry("title", Str(title)), Entry("content", Str(content)),
                            Entry("password", Str(password))], ignore, sensitive)
         == [FieldChange("title", Null, Str(title)), FieldChange("content", Null, Str(content))]
  {
    MissingByteNotContained("title", "password", 0);
    MissingByteNotContained("title", "token", 1);
    MissingByteNotContained("content", "password", 0);
    MissingByteNotContained("content", "token", 2);
    assert ShouldIgnoreField("password", ignore) by {
      assert OccursAt("password", "password", 0);
    }
    CreatedOmitsIgnoredLast(Entry("title", Str(title)), Entry("content", Str(content)),
                            Entry("password", Str(password)), ignore, sensitive);
  }

  /** Three attributes of which only the last is ignored, the first two
      short, non-sensitive strings: the diff holds exactly the first two. */
  lemma CreatedOmitsIgnoredLast(x: Entry, y: Entry, z: Entry, ignore: seq<string>, sensitive: seq<string>)
    requires !ShouldIgnoreField(x.key, ignore) && !ShouldIgnoreField(y.key, ignore)
    requires ShouldIgnoreField(z.key, ignore)
    requires x.key !in sensitive && y.key !in sensitive
    requires x.value.Str? && |x.value.s| <= FormatLimit && y.value.Str? && |y.value.s| <= FormatLimit
    ensures CreatedChanges([x, y, z], ignore, sensitive)
         == [FieldChange(x.key, Null, x.value), FieldChange(y.key, Null, y.value)]
  {
    var clean := Sanitize([x, y, z], sensitive);
    assert clean == [x, y, clean[2]];
    RejectLast(x, y, clean[2], ignore);
    assert Map([x, y], CreatedChange) == [CreatedChange(x), CreatedChange(y)];
  }

  /** Rejecting from a three-entry array whose last entry alone is ignored. */
  lemma RejectLast(x: Entry, y: Entry, z: Entry, ignore: seq<string>)
    requires !ShouldIgnoreField(x.key, ignore) && !ShouldIgnoreField(y.key, ignore)
    requires ShouldIgnoreField(z.key, ignore)
    ensures RejectIgnored([x, y, z], ignore) == [x, y]
  {
    assert [z][1..] == [];
    assert RejectIgnored([z], ignore) == [];
    assert [y, z][1..] == [z];
    assert RejectIgnored([y, z], ignore) == [y];
    assert [x, y, z][1..] == [y, z];
  }
}

=== FILE: formatter.dfy ===
/** The value normaliser applied to every before/after value of a field
    change. Modelled on `ActivityObserver::formatValue`. */
module Formatter {
  import opened Values
  import opened Redactor

  const Ellipsis: string := "..."

  /** A string strictly longer than this many bytes is shortened. */
  const FormatLimit: nat := 1000

  /** `json_encode` of an array or object. A UUID object serialises to its
      canonical text as a JSON string literal. */
  function JsonEncode(v: Value): string
    requires v.Composite? || v.Uuid?
  {
    if v.Composite? then v.encoded else "\"" + v.text + "\""
  }

  /** `formatValue`. Its result is null, a string or an unchanged integer. */
  function FormatValue(v: Value): (r: Value)
    ensures r.Null? <==> v.Null?
    ensures r.Null? || r.Str? || r.Int?
    ensures v.Bool? ==> r.Str? && (r.s == "true" <==> v.b) && (r.s == "false" <==> !v.b)
    ensures v.Composite? ==> r == Str(v.encoded)
    ensures v.Uuid? ==> r.Str? && |r.s| == |v.text| + 2 && r.s[1..|v.text| + 1] == v.text
    ensures v.Int? ==> r == v
    ensures v.Str? && |v.s| <= FormatLimit ==> r == v
    ensures v.Str? && |v.s| > FormatLimit ==>
      r.Str? && |r.s| == 1003 && r.s[..FormatLimit] == v.s[..FormatLimit] && r.s[FormatLimit..] == Ellipsis
  {
    match v
    case Null => Null
    case Bool(b) => Str(if b then "true" else "false")
    case Composite(_) => Str(JsonEncode(v))
    case Uuid(_) => Str(JsonEncode(v))
    case Str(s) => if |s| > FormatLimit then Str(s[..FormatLimit] + Ellipsis) else v
    case Int(_) => v
  }

  /** Formatting a string twice is the same as formatting it once: a
      shortened string keeps the same first 1000 bytes and the same suffix. */
  lemma FormatIdempotentOnStrings(s: string)
    ensures FormatValue(FormatValue(Str(s))) == FormatValue(Str(s))
  {
    if |s| > FormatLimit {
      var once := FormatValue(Str(s)).s;
      assert once[..FormatLimit] == s[..FormatLimit];
    }
  }

  /** Idempotence holds for every value except an array or object whose
      encoding exceeds the limit: encodings are never shortened the first
      time, but their text is shortened the second time. */
  lemma FormatIdempotent(v: Value)
    requires v.Composite? ==> |v.encoded| <= FormatLimit
    requires v.Uuid? ==> |v.text| + 2 <= FormatLimit
    ensures FormatValue(FormatValue(v)) == FormatValue(v)
  {
    if v.Str? {
      FormatIdempotentOnStrings(v.s);
    }
  }

  /** A long encoding is kept whole by the first pass and cut by the second
      (unless it happens to end in the ellipsis exactly at the cut). */
  lemma LongCompositeNotIdempotent(encoded: string)
    requires |encoded| > FormatLimit && encoded[FormatLimit..] != Ellipsis
    ensures FormatValue(Composite(encoded)) == Str(encoded)
    ensures FormatValue(FormatValue(Composite(encoded))) != FormatValue(Composite(encoded))
  {
    assert |FormatValue(Str(encoded)).s| == 1003;
    if |encoded| == 1003 {
      assert FormatValue(Str(encoded)).s[FormatLimit..] != encoded[FormatLimit..];
    }
  }

  /** When the sanitiser and the formatter both cut a large text, the
      formatter's cut wins: the stored value is the first 1000 bytes followed
      by the three-byte ellipsis, and the sanitiser's marker is gone. */
  lemma SanitiseThenFormatLargeText(key: string, s: string, sensitive: seq<string>)
    requires |s| > LargeTextThreshold
    ensures FormatValue(SanitizeValue(key, Str(s), sensitive)) == Str(s[..FormatLimit] + Ellipsis)
  {
    var cut := TruncateLarge(s);
    assert cut[..FormatLimit] == s[..FormatLimit];
  }
}

=== FILE: observer.dfy ===
/** The observer itself: assembling one activity record per lifecycle event
    and the gate that decides whether a delivery job is dispatched. Modelled
    on `ActivityObserver`'s event handlers, `logActivity`,
    `shouldSkipLogging`, `buildActivityData` and `getMetadata`. */
module Observer {
  import opened Seqs
  import opened Values
  import opened Redactor
  import opened Diff
  import opened Actors
  import opened Tags
  import opened Context

  /** The four lifecycle hooks the observer registers. */
  datatype Lifecycle = Created | Updated | Deleted | Restored {
    function Name(): string {
      match this
      case Created => CreatedEvent
      case Updated => UpdatedEvent
      case Deleted => DeletedEvent
      case Restored => RestoredEvent
    }
  }

  /** The configuration keys the observer reads. `None` stands for a key
      that is not configured, so the in-code default applies. */
  datatype Config = Config(
    appEnv: string,
    appVersion: Option<string>,
    queue: string,
    logConsoleEvents: Option<bool>,
    sensitiveFields: Option<seq<string>>,
    ignoreFields: Option<seq<string>>)

  /** Everything the observer reads from its surroundings at the moment of
      the event: console flag, request, command line, guards, clock and the
      runtime versions. */
  datatype Runtime = Runtime(
    runningInConsole: bool,
    request: Option<Request>,
    argv: seq<string>,
    auth: AuthState,
    clock: Clock,
    phpVersion: string,
    frameworkVersion: string)

  /** The UUIDs `Str::uuid()` would generate: the record id and the request
      id used when the request carries none. */
  datatype FreshIds = FreshIds(activityId: string, requestId: string)

  datatype Metadata = Metadata(
    environment: string,
    applicationVersion: string,
    transactionId: Option<string>,
    phpVersion: string,
    frameworkVersion: string)

  datatype ActivityRecord = ActivityRecord(
    id: string,
    model: string,
    modelId: string,
    event: string,
    user: Option<UserInfo>,
    attributes: Attrs,
    changes: seq<FieldChange>,
    context: RequestContext,
    metadata: Metadata,
    tags: seq<string>,
    timestamp: string)

  /** A queued delivery job: the queue it is placed on and its payload. */
  datatype Job = Job(queue: string, record: ActivityRecord)

  const DefaultApplicationVersion: string := "1.0.0"

  /** The sensitive-field list: the configured one, else the in-code fallback. */
  function SensitiveFields(cfg: Config): (fields: seq<string>)
    ensures cfg.sensitiveFields.Some? ==> fields == cfg.sensitiveFields.value
    ensures cfg.sensitiveFields.None? ==> fields == DefaultSensitiveFields
  {
    if cfg.sensitiveFields.Some? then cfg.sensitiveFields.value else DefaultSensitiveFields
  }

  /** The ignore list: the configured one, else no field at all. */
  function IgnoreFields(cfg: Config): (fields: seq<string>)
    ensures cfg.ignoreFields.Some? ==> fields == cfg.ignoreFields.value
    ensures cfg.ignoreFields.None? ==> fields == []
  {
    if cfg.ignoreFields.Some? then cfg.ignoreFields.value else []
  }

  /** Whether console events are logged: the configured flag, else off. */
  function LogsConsoleEvents(cfg: Config): (on: bool)
    ensures cfg.logConsoleEvents.Some? ==> on == cfg.logConsoleEvents.value
    ensures cfg.logConsoleEvents.None? ==> !on
  {
    cfg.logConsoleEvents.Some? && cfg.logConsoleEvents.value
  }

  /** `getMetadata`: the configured environment and version (`1.0.0` when no
      version is configured), the two runtime versions, and no transaction id,
      since none is ever available. */
  function CollectMetadata(cfg: Config, rt: Runtime): (m: Metadata)
    ensures m.transactionId.None?
    ensures m.environment == cfg.appEnv
    ensures cfg.appVersion.Some? ==> m.applicationVersion == cfg.appVersion.value
    ensures cfg.appVersion.None? ==> m.applicationVersion == DefaultApplicationVersion
    ensures m.phpVersion == rt.phpVersion && m.frameworkVersion == rt.frameworkVersion
  {
    Metadata(cfg.appEnv,
             if cfg.appVersion.Some? then cfg.appVersion.value else DefaultApplicationVersion,
             None, rt.phpVersion, rt.frameworkVersion)
  }

  /** `buildActivityData`: one record, assembled without I/O from the parts
      above. */
  function BuildActivityData(event: string, m: Entity, cfg: Config, rt: Runtime, ids: FreshIds): (r: ActivityRecord)
    ensures r.id == ids.activityId && r.event == event && r.model == m.className
    ensures ReadsBackAs(r.modelId, m.key)
    ensures r.user == ResolveActor(rt.auth)
    ensures Keys(r.attributes) == Keys(m.attributes)
    ensures forall i :: 0 <= i < |r.attributes| ==> !r.attributes[i].value.Uuid?
    ensures forall i :: 0 <= i < |r.attributes| && IsLargeText(m.attributes[i].value) ==>
      r.attributes[i].value == Str(TruncateLarge(m.attributes[i].value.s))
    ensures forall i :: 0 <= i < |r.attributes| && !IsLargeText(m.attributes[i].value)
                        && m.attributes[i].key in SensitiveFields(cfg) ==>
      r.attributes[i].value == Str(RedactedMarker)
    ensures forall c :: c in r.changes ==> !ShouldIgnoreField(c.field, IgnoreFields(cfg))
    ensures Distinct(r.tags) && event in r.tags && cfg.appEnv in r.tags
    ensures ActorTag(r.user) in r.tags
    ensures SourceTag(rt.runningInConsole) in r.tags
    ensures r.context.ConsoleContext? <==> rt.request.None?
    ensures r.attributes == Sanitize(m.attributes, SensitiveFields(cfg))
    ensures r.changes == ModelChanges(event, m, IgnoreFields(cfg), SensitiveFields(cfg))
    ensures r.context == CollectContext(rt.request, rt.argv, ids.requestId)
    ensures r.metadata == CollectMetadata(cfg, rt)
    ensures r.timestamp == rt.clock.iso8601
    ensures r.tags == GenerateTags(cfg.appEnv, event, m.className, rt.clock, rt.auth, rt.runningInConsole)
  {
    ActivityRecord(
      ids.activityId,
      m.className,
      KeyText(m.key),
      event,
      ResolveActor(rt.auth),
      Sanitize(m.attributes, SensitiveFields(cfg)),
      ModelChanges(event, m, IgnoreFields(cfg), SensitiveFields(cfg)),
      CollectContext(rt.request, rt.argv, ids.requestId),
      CollectMetadata(cfg, rt),
      GenerateTags(cfg.appEnv, event, m.className, rt.clock, rt.auth, rt.runningInConsole),
      rt.clock.iso8601)
  }

  /** `shouldSkipLogging`: a console run is skipped unless console logging
      is switched on; a web request is never skipped, and no model type or
      event is singled out. */
  function ShouldSkipLogging(cfg: Config, rt: Runtime): (skip: bool)
    ensures skip ==> rt.runningInConsole
    ensures rt.runningInConsole && cfg.logConsoleEvents.None? ==> skip
    ensures rt.runningInConsole && cfg.logConsoleEvents == Some(false) ==> skip
    ensures cfg.logConsoleEvents == Some(true) ==> !skip
  {
    rt.runningInConsole && !LogsConsoleEvents(cfg)
  }

  /** `logActivity`, as the list of jobs it dispatches: none when skipped,
      otherwise exactly one, on the configured queue, carrying the record. */
  function LogActivity(event: string, m: Entity, cfg: Config, rt: Runtime, ids: FreshIds): (jobs: seq<Job>)
    ensures |jobs| <= 1
    ensures |jobs| == 0 <==> rt.runningInConsole && !LogsConsoleEvents(cfg)
    ensures |jobs| == 1 ==>
      jobs[0].queue == cfg.queue && jobs[0].record.event == event && jobs[0].record.id == ids.activityId
    ensures |jobs| == 1 ==> jobs[0].record == BuildActivityData(event, m, cfg, rt, ids)
  {
    if ShouldSkipLogging(cfg, rt) then []
    else
      var record := BuildActivityData(event, m, cfg, rt, ids);
      [Job(cfg.queue, record)]
  }

  /** The four hooks: each passes its own event name to `logActivity`. */
  function Observe(hook: Lifecycle, m: Entity, cfg: Config, rt: Runtime, ids: FreshIds): (jobs: seq<Job>)
    ensures |jobs| <= 1
    ensures forall j :: j in jobs ==> j.record.event == hook.Name()
    ensures forall j :: j in jobs ==> j.record == BuildActivityData(hook.Name(), m, cfg, rt, ids)
  {
    LogActivity(hook.Name(), m, cfg, rt, ids)
  }

  /** The diff of a dispatched record matches its hook: creations have no
      before values, deletions no after values, restorations no changes. */
  lemma DispatchedChangesMatchHook(hook: Lifecycle, m: Entity, cfg: Config, rt: Runtime, ids: FreshIds)
    ensures forall j :: j in Observe(hook, m, cfg, rt, ids) ==>
      && (hook == Created ==> forall c :: c in j.record.changes ==> c.before == Null)
      && (hook == Deleted ==> forall c :: c in j.record.changes ==> c.after == Null)
      && (hook == Restored ==> j.record.changes == [])
  {
    forall j | j in Observe(hook, m, cfg, rt, ids)
      ensures j.record.changes == ModelChanges(hook.Name(), m, IgnoreFields(cfg), SensitiveFields(cfg))
    {
    }
  }

  /** The actor in a record and the actor tag agree, since both come from
      the same guards. */
  lemma RecordActorMatchesTags(event: string, m: Entity, cfg: Config, rt: Runtime, ids: FreshIds)
    requires cfg.appEnv != AnonymousTag && !(UserTypePrefix <= cfg.appEnv)
    requires event != AnonymousTag && !(UserTypePrefix <= event)
    ensures var r := BuildActivityData(event, m, cfg, rt, ids);
      && (AnonymousTag in r.tags <==> r.user.None?)
      && (r.user.Some? ==> UserTypePrefix + r.user.value.Type() in r.tags)
  {
    ExactlyOneActorTag(cfg.appEnv, event, m.className, rt.clock, rt.auth, rt.runningInConsole);
  }

  /** The record's context depends only on whether a request is present, not
      on the console flag the tags and the gate use. */
  lemma ContextIgnoresConsoleFlag(event: string, m: Entity, cfg: Config, rt: Runtime, ids: FreshIds)
    ensures BuildActivityData(event, m, cfg, rt.(runningInConsole := true), ids).context
         == BuildActivityData(event, m, cfg, rt.(runningInConsole := false), ids).context
  {
  }

  /** A console run with console logging off and no request object is
      dropped; with console logging on it yields one record whose context is
      the console variant and whose tags include `console`, plus `anonymous`
      when no guard is authenticated. */
  lemma ConsoleScenario(m: Entity, cfg: Config, rt: Runtime, ids: FreshIds)
    requires rt.runningInConsole && rt.request.None?
    requires rt.auth == AuthState(None, None, None)
    ensures !LogsConsoleEvents(cfg) ==> Observe(Created, m, cfg, rt, ids) == []
    ensures LogsConsoleEvents(cfg) ==>
      var jobs := Observe(Created, m, cfg, rt, ids);
      && |jobs| == 1
      && jobs[0].record.context.ConsoleContext?
      && ConsoleTag in jobs[0].record.tags
      && AnonymousTag in jobs[0].record.tags
  {
    assert ActorTag(ResolveActor(rt.auth)) == AnonymousTag;
  }
}

=== FILE: redactor.dfy ===
/** The attribute sanitiser: UUID objects become text, sensitive keys are
    masked, and very large strings are cut short. Modelled on
    `ActivityObserver::sanitizeAttributes`. */
module Redactor {
  import opened Seqs
  import opened Values

  const RedactedMarker: string := "[REDACTED]"
  const TruncatedMarker: string := "... [TRUNCATED]"

  /** A string strictly longer than this many bytes is large text. */
  const LargeTextThreshold: nat := 10000

  /** How many leading bytes of a large text are kept. */
  const LargeTextKept: nat := 1000

  /** The list the observer falls back on when no sensitive-field list is configured. */
  const DefaultSensitiveFields: seq<string> := [
    "password", "password_confirmation", "remember_token", "api_token",
    "secret", "private_key", "credit_card_number", "ssn"
  ]

  /** The sensitive-field list of the shipped configuration file. */
  const ConfiguredSensitiveFields: seq<string> := [
    "password", "password_confirmation", "remember_token", "api_token",
    "secret", "private_key", "credit_card_number", "ssn", "social_security_number"
  ]

  predicate IsLargeText(v: Value) {
    v.Str? && |v.s| > LargeTextThreshold
  }

  /** What a large text is replaced with. */
  function TruncateLarge(s: string): (t: string)
    requires |s| > LargeTextThreshold
    ensures |t| == LargeTextKept + |TruncatedMarker| == 1015
    ensures t[..LargeTextKept] == s[..LargeTextKept]
    ensures t[LargeTextKept..] == TruncatedMarker
  {
    s[..LargeTextKept] + TruncatedMarker
  }

  /** One iteration of the sanitiser's loop. The three steps run in source
      order and each tests the ORIGINAL value: the UUID conversion, then the
      mask for a sensitive key, then the large-text cut, which therefore
      overrides the mask. */
  function SanitizeValue(key: string, v: Value, sensitive: seq<string>): (r: Value)
    ensures !r.Uuid?
    ensures IsLargeText(v) ==> r == Str(TruncateLarge(v.s))
    ensures !IsLargeText(v) && key in sensitive ==> r == Str(RedactedMarker)
    ensures !IsLargeText(v) && key !in sensitive && v.Uuid? ==> r == Str(v.text)
    ensures !IsLargeText(v) && key !in sensitive && !v.Uuid? ==> r == v
  {
    var textual := if v.Uuid? then Str(v.text) else v;
    var masked := if key in sensitive then Str(RedactedMarker) else textual;
    if v.Str? && |v.s| > LargeTextThreshold then Str(v.s[..LargeTextKept] + TruncatedMarker)
    else masked
  }

  function SanitizeEntry(sensitive: seq<string>): Entry -> Entry {
    (e: Entry) => Entry(e.key, SanitizeValue(e.key, e.value, sensitive))
  }

  /** `sanitizeAttributes`: the same keys in the same order, no UUID object
      left, sensitive keys masked unless their value is large text, large text
      cut to 1015 bytes, every other value untouched. */
  function Sanitize(attrs: Attrs, sensitive: seq<string>): (r: Attrs)
    ensures Keys(r) == Keys(attrs)
    ensures forall i :: 0 <= i < |r| ==> !r[i].value.Uuid?
    ensures forall i :: 0 <= i < |r| && IsLargeText(attrs[i].value) ==>
      r[i].value == Str(TruncateLarge(attrs[i].value.s))
    ensures forall i :: 0 <= i < |r| && !IsLargeText(attrs[i].value) && attrs[i].key in sensitive ==>
      r[i].value == Str(RedactedMarker)
    ensures forall i :: 0 <= i < |r| && !IsLargeText(attrs[i].value) && attrs[i].key !in sensitive ==>
      r[i].value == (if attrs[i].value.Uuid? then Str(attrs[i].value.text) else attrs[i].value)
  {
    Map(attrs, SanitizeEntry(sensitive))
  }

  /** What survives under a sensitive key: the marker, or at most the first
      1000 bytes of a large text followed by the truncation marker. Masking is
      therefore NOT absolute. */
  lemma SensitiveExposure(attrs: Attrs, sensitive: seq<string>, i: nat)
    requires i < |attrs| && attrs[i].key in sensitive
    ensures Sanitize(attrs, sensitive)[i].value == Str(RedactedMarker)
         || (attrs[i].value.Str? && Sanitize(attrs, sensitive)[i].value
               == Str(attrs[i].value.s[..LargeTextKept] + TruncatedMarker))
  {
  }

  /** A concrete leak: a 10001-byte password is not masked; its first 1000
      bytes appear in the sanitised attributes. */
  lemma LargeSecretIsNotMasked()
    ensures var secret := seq(10001, _ => 'x');
            var r := Sanitize([Entry("password", Str(secret))], DefaultSensitiveFields);
            r[0].value != Str(RedactedMarker) && r[0].value.s[..1000] == secret[..1000]
  {
    var secret := seq(10001, _ => 'x');
    var r := Sanitize([Entry("password", Str(secret))], DefaultSensitiveFields);
    assert IsLargeText(Str(secret));
    assert r[0].value == Str(TruncateLarge(secret));
    assert r[0].value.s[1000..] == TruncatedMarker;
    assert |r[0].value.s| != |RedactedMarker|;
  }

  /** The in-code fallback list masks fewer keys than the shipped configuration:
      `social_security_number` is masked only when the configuration is loaded. */
  lemma FallbackListOmitsSocialSecurityNumber(v: Value)
    requires !IsLargeText(v) && !v.Uuid?
    ensures SanitizeValue("social_security_number", v, ConfiguredSensitiveFields) == Str(RedactedMarker)
    ensures SanitizeValue("social_security_number", v, DefaultSensitiveFields) == v
  {
    assert "social_security_number" in ConfiguredSensitiveFields;
  }

  /** Sanitising twice changes nothing, provided no sensitive key holds large
      text (a cut text under a sensitive key would be masked on the second
      pass) and no UUID text is itself large. */
  lemma SanitizeIdempotent(attrs: Attrs, sensitive: seq<string>)
    requires forall i :: 0 <= i < |attrs| && attrs[i].key in sensitive ==> !IsLargeText(attrs[i].value)
    requires forall i :: 0 <= i < |attrs| && attrs[i].value.Uuid? ==> |attrs[i].value.text| <= LargeTextThreshold
    ensures Sanitize(Sanitize(attrs, sensitive), sensitive) == Sanitize(attrs, sensitive)
  {
    var once := Sanitize(attrs, sensitive);
    var twice := Sanitize(once, sensitive);
    assert Keys(twice) == Keys(once);
    forall i | 0 <= i < |once|
      ensures twice[i] == once[i]
    {
      assert once[i].key == attrs[i].key && twice[i].key == once[i].key;
    }
  }
}

=== FILE: seqs.dfy ===
/** Generic facts about sequences used throughout the model: distinctness,
    order-preserving subsequences, and the position of a first occurrence. */
module Seqs {

  /** No element occurs twice. */
  ghost predicate Distinct<T>(xs: seq<T>) {
    forall i, j :: 0 <= i < j < |xs| ==> xs[i] != xs[j]
  }

  /** `xs` can be obtained from `ys` by deleting elements, keeping order. */
  ghost predicate Subsequence<T>(xs: seq<T>, ys: seq<T>)
    decreases |ys|
  {
    if |xs| == 0 then true
    else if |ys| == 0 then false
    else (xs[0] == ys[0] && Subsequence(xs[1..], ys[1..])) || Subsequence(xs, ys[1..])
  }

  /** Position of the first occurrence of `x` in `xs`. */
  function FirstIndex<T(==)>(xs: seq<T>, x: T): (k: nat)
    requires x in xs
    ensures k < |xs| && xs[k] == x && x !in xs[..k]
  {
    if xs[0] == x then 0 else 1 + FirstIndex(xs[1..], x)
  }

  /** Appending an element does not move the first occurrence of anything
      already present, and a new element first occurs at the end. */
  lemma {:induction false} FirstIndexAppend<T>(xs: seq<T>, y: T)
    ensures forall x :: x in xs ==> FirstIndex(xs + [y], x) == FirstIndex(xs, x)
    ensures y !in xs ==> FirstIndex(xs + [y], y) == |xs|
  {
    forall x | x in xs
      ensures FirstIndex(xs + [y], x) == FirstIndex(xs, x)
    {
      var k := FirstIndex(xs, x);
      assert (xs + [y])[..k] == xs[..k];
    }
    if y !in xs {
      assert (xs + [y])[..|xs|] == xs;
    }
  }

  /** Keeps the first occurrence of every element, in order of first occurrence. */
  function Dedup<T(==,!new)>(xs: seq<T>): (r: seq<T>)
    ensures Distinct(r)
    ensures forall x :: x in r <==> x in xs
    ensures |r| <= |xs|
    ensures |xs| > 0 ==> |r| > 0 && r[0] == xs[0]
    decreases |xs|
  {
    if |xs| == 0 then []
    else
      var init := xs[..|xs| - 1];
      var last := xs[|xs| - 1];
      assert xs == init + [last];
      var prefix := Dedup(init);
      if last in prefix then prefix else prefix + [last]
  }

  /** The kept elements appear in the order of their first occurrences. */
  lemma {:induction false} DedupKeepsFirstOccurrenceOrder<T(!new)>(xs: seq<T>)
    ensures var r := Dedup(xs);
      forall i, j :: 0 <= i < j < |r| ==> FirstIndex(xs, r[i]) < FirstIndex(xs, r[j])
    decreases |xs|
  {
    if |xs| > 0 {
      var init := xs[..|xs| - 1];
      var last := xs[|xs| - 1];
      assert xs == init + [last];
      FirstIndexAppend(init, last);
      DedupKeepsFirstOccurrenceOrder(init);
      var prefix := Dedup(init);
      var r := Dedup(xs);
      forall i, j | 0 <= i < j < |r|
        ensures FirstIndex(xs, r[i]) < FirstIndex(xs, r[j])
      {
        OrderStep(xs, init, last, prefix, r, i, j);
      }
    }
  }

  /** One pair of the induction step above. */
  lemma OrderStep<T(!new)>(xs: seq<T>, init: seq<T>, last: T, prefix: seq<T>, r: seq<T>, i: nat, j: nat)
    requires xs == init + [last] && prefix == Dedup(init) && r == Dedup(xs)
    requires forall x :: x in init ==> FirstIndex(xs, x) == FirstIndex(init, x)
    requires last !in init ==> FirstIndex(xs, last) == |init|
    requires forall i, j :: 0 <= i < j < |prefix| ==> FirstIndex(init, prefix[i]) < FirstIndex(init, prefix[j])
    requires i < j < |r|
    ensures FirstIndex(xs, r[i]) < FirstIndex(xs, r[j])
  {
    assert xs[..|xs| - 1] == init;
    if last in prefix {
      assert r == prefix;
      assert prefix[i] in prefix && prefix[j] in prefix;
    } else {
      assert r == prefix + [last];
      assert r[i] == prefix[i] && prefix[i] in prefix;
      if j < |prefix| {
        assert r[j] == prefix[j] && prefix[j] in prefix;
      } else {
        assert FirstIndex(init, prefix[i]) < |init|;
      }
    }
  }

  /** Deduplication leaves a sequence without duplicates unchanged. */
  lemma {:induction false} DedupOfDistinct<T(!new)>(xs: seq<T>)
    requires Distinct(xs)
    ensures Dedup(xs) == xs
    decreases |xs|
  {
    if |xs| > 0 {
      var init := xs[..|xs| - 1];
      assert Distinct(init);
      DedupOfDistinct(init);
      assert xs == init + [xs[|xs| - 1]];
    }
  }

  /** Mapping both sides of a subsequence relation keeps the relation. */
  lemma {:induction false} SubsequenceMap<T, U>(xs: seq<T>, ys: seq<T>, f: T -> U)
    requires Subsequence(xs, ys)
    ensures Subsequence(Map(xs, f), Map(ys, f))
    decreases |ys|
  {
    if |xs| > 0 {
      assert Map(ys, f)[1..] == Map(ys[1..], f);
      if xs[0] == ys[0] && Subsequence(xs[1..], ys[1..]) {
        SubsequenceMap(xs[1..], ys[1..], f);
        assert Map(xs, f)[1..] == Map(xs[1..], f);
      } else {
        SubsequenceMap(xs, ys[1..], f);
      }
    }
  }

  /** A subsequence of a sequence without duplicates has none either. */
  lemma {:induction false} SubsequenceDistinct<T>(xs: seq<T>, ys: seq<T>)
    requires Subsequence(xs, ys)
    requires Distinct(ys)
    ensures Distinct(xs)
    ensures forall x :: x in xs ==> x in ys
    decreases |ys|
  {
    if |xs| > 0 {
      assert Distinct(ys[1..]);
      if xs[0] == ys[0] && Subsequence(xs[1..], ys[1..]) {
        SubsequenceDistinct(xs[1..], ys[1..]);
        assert xs == [xs[0]] + xs[1..];
        assert xs[0] !in ys[1..];
      } else {
        SubsequenceDistinct(xs, ys[1..]);
      }
    }
  }

  /** Applies `f` to every element. */
  function Map<T, U>(xs: seq<T>, f: T -> U): (r: seq<U>)
    ensures |r| == |xs|
    ensures forall i :: 0 <= i < |xs| ==> r[i] == f(xs[i])
  {
    seq(|xs|, i requires 0 <= i < |xs| => f(xs[i]))
  }

  /** Membership in a mapped sequence. */
  lemma MapMembership<T, U>(xs: seq<T>, f: T -> U)
    ensures forall y :: y in Map(xs, f) ==> exists x :: x in xs && y == f(x)
    ensures forall x :: x in xs ==> f(x) in Map(xs, f)
  {
    var ys := Map(xs, f);
    forall y | y in ys
      ensures exists x :: x in xs && y == f(x)
    {
      var i :| 0 <= i < |ys| && ys[i] == y;
      assert xs[i] in xs && y == f(xs[i]);
    }
    forall x | x in xs
      ensures f(x) in ys
    {
      var i :| 0 <= i < |xs| && xs[i] == x;
      assert ys[i] == f(x);
    }
  }
}

=== FILE: tags.dfy ===
/** The tag generator: categorical labels for an activity record, without
    duplicates. Modelled on `ActivityObserver::generateTags`. */
module Tags {
  import opened Seqs
  import opened Text
  import opened Values
  import opened Actors

  type Hour = h: int | 0 <= h < 24
  type Weekday = d: int | 1 <= d <= 7 witness 1

  /** The clock reading `now()` supplies: hour of day, ISO weekday
      (Monday is 1), and the ISO-8601 timestamp text. */
  datatype Clock = Clock(hour: Hour, weekday: Weekday, iso8601: string)

  const ConsoleTag: string := "console"
  const WebTag: string := "web"
  const AnonymousTag: string := "anonymous"
  const UserTypePrefix: string := "user_type:"

  /** Where the part of `className[..n]` after its last backslash begins. */
  function BasenameStart(className: string, n: nat): (k: nat)
    requires n <= |className|
    ensures k <= n
    ensures forall j :: k <= j < n ==> className[j] != '\\'
    ensures k > 0 ==> className[k - 1] == '\\'
  {
    if n == 0 then 0
    else if className[n - 1] == '\\' then n
    else BasenameStart(className, n - 1)
  }

  /** `class_basename`: the part of a class name after its last backslash. */
  function ClassBasename(className: string): (b: string)
    ensures |b| <= |className|
  {
    className[BasenameStart(className, |className|)..]
  }

  /** The basename is the longest backslash-free suffix of the class name. */
  lemma ClassBasenameIsLastSegment(className: string)
    ensures var b := ClassBasename(className);
      && '\\' !in b
      && |b| <= |className| && b == className[|className| - |b|..]
      && (|b| < |className| ==> className[|className| - |b| - 1] == '\\')
  {
  }

  function ModelTag(className: string): string {
    "model:" + Lower(ClassBasename(className))
  }

  /** The hour of day as a zero-padded two-digit number after `hour:`. */
  function HourTag(h: Hour): string {
    "hour:" + TwoDigits(h)
  }

  /** The ISO weekday (Monday is 1, Sunday 7) after `day:`. */
  function DayTag(d: Weekday): string {
    "day:" + NatString(d)
  }

  function ActorTag(user: Option<UserInfo>): string {
    if user.Some? then UserTypePrefix + user.value.Type() else AnonymousTag
  }

  function SourceTag(runningInConsole: bool): string {
    if runningInConsole then ConsoleTag else WebTag
  }

  /** The tag list before `array_unique`, in the order it is built. */
  function RawTags(env: string, event: string, className: string, clock: Clock,
                   user: Option<UserInfo>, runningInConsole: bool): (raw: seq<string>)
    ensures |raw| == 7 && raw[0] == env && raw[1] == event
    ensures raw[5] == AnonymousTag <==> user.None?
    ensures raw[6] == ConsoleTag <==> runningInConsole
  {
    [env, event, ModelTag(className), HourTag(clock.hour), DayTag(clock.weekday),
     ActorTag(user), SourceTag(runningInConsole)]
  }

  /** `generateTags`: the first occurrence of each raw tag, in order. The
      actor is resolved from the guards here, as the source does. */
  function GenerateTags(env: string, event: string, className: string, clock: Clock,
                        auth: AuthState, runningInConsole: bool): (tags: seq<string>)
    ensures Distinct(tags)
    ensures 1 <= |tags| <= 7 && tags[0] == env
    ensures env in tags && event in tags
    ensures ModelTag(className) in tags
    ensures HourTag(clock.hour) in tags && DayTag(clock.weekday) in tags
    ensures ActorTag(ResolveActor(auth)) in tags
    ensures SourceTag(runningInConsole) in tags
    ensures forall t :: t in tags <==> t in RawTags(env, event, className, clock, ResolveActor(auth), runningInConsole)
  {
    var raw := RawTags(env, event, className, clock, ResolveActor(auth), runningInConsole);
    SevenMembers(raw, env, event, ModelTag(className), HourTag(clock.hour), DayTag(clock.weekday),
                   ActorTag(ResolveActor(auth)), SourceTag(runningInConsole));
    Dedup(raw)
  }

  /** Membership in a seven-element tag list, with the elements held abstract. */
  lemma SevenMembers(raw: seq<string>, a: string, b: string, c: string, d: string, e: string, f: string, g: string)
    requires raw == [a, b, c, d, e, f, g]
    ensures |raw| == 7 && raw[0] == a
    ensures forall t :: t in raw <==> t == a || t == b || t == c || t == d || t == e || t == f || t == g
  {
  }

  /** `array_unique` keeps the first occurrence of each tag: the tags come
      out in the order in which they first occur in the raw list. */
  lemma TagsInFirstOccurrenceOrder(env: string, event: string, className: string, clock: Clock,
                                   auth: AuthState, runningInConsole: bool)
    ensures var raw := RawTags(env, event, className, clock, ResolveActor(auth), runningInConsole);
      var tags := GenerateTags(env, event, className, clock, auth, runningInConsole);
      forall i, j :: 0 <= i < j < |tags| ==> FirstIndex(raw, tags[i]) < FirstIndex(raw, tags[j])
  {
    var raw := RawTags(env, event, className, clock, ResolveActor(auth), runningInConsole);
    var tags := GenerateTags(env, event, className, clock, auth, runningInConsole);
    assert tags == Dedup(raw);
    DedupKeepsFirstOccurrenceOrder(raw);
  }

  /** The hour and day tags carry the clock reading in a form that reads back. */
  lemma TimeTagsReadBack(clock: Clock)
    ensures HourTag(clock.hour)[..5] == "hour:" && |HourTag(clock.hour)| == 7
    ensures AllDigits(HourTag(clock.hour)[5..]) && ParseNat(HourTag(clock.hour)[5..]) == clock.hour
    ensures DayTag(clock.weekday) == "day:" + [DigitChar(clock.weekday)]
  {
    assert HourTag(clock.hour)[5..] == TwoDigits(clock.hour);
  }

  /** None of the generated tags other than the environment and the event
      can be spelled like the source tags. */
  lemma FixedTagsAreNotSourceTags(className: string, clock: Clock, user: Option<UserInfo>)
    ensures ModelTag(className) != ConsoleTag && ModelTag(className) != WebTag
    ensures HourTag(clock.hour) != ConsoleTag && HourTag(clock.hour) != WebTag
    ensures DayTag(clock.weekday) != ConsoleTag && DayTag(clock.weekday) != WebTag
    ensures ActorTag(user) != ConsoleTag && ActorTag(user) != WebTag
  {
    assert ModelTag(className)[0] == 'm';
    assert HourTag(clock.hour)[0] == 'h';
    assert DayTag(clock.weekday)[0] == 'd';
    assert ActorTag(user)[0] in {'u', 'a'};
  }

  /** Exactly one of `console` and `web` is present, and it says where the
      code ran, provided neither the environment nor the event is itself
      named `console` or `web`. */
  lemma ExactlyOneSourceTag(env: string, event: string, className: string, clock: Clock,
                            auth: AuthState, runningInConsole: bool)
    requires env != ConsoleTag && env != WebTag && event != ConsoleTag && event != WebTag
    ensures var tags := GenerateTags(env, event, className, clock, auth, runningInConsole);
      && (ConsoleTag in tags <==> runningInConsole)
      && (WebTag in tags <==> !runningInConsole)
  {
    var user := ResolveActor(auth);
    FixedTagsAreNotSourceTags(className, clock, user);
    var raw := RawTags(env, event, className, clock, user, runningInConsole);
    var fixed := [ModelTag(className), HourTag(clock.hour), DayTag(clock.weekday), ActorTag(user)];
    assert ConsoleTag !in fixed && WebTag !in fixed;
    assert raw == [env, event] + fixed + [SourceTag(runningInConsole)];
    SourceTagsAmong(raw, env, event, fixed, runningInConsole);
  }

  /** The source-tag argument, with the four fixed tags held abstract. */
  lemma SourceTagsAmong(raw: seq<string>, env: string, event: string, fixed: seq<string>, runningInConsole: bool)
    requires |fixed| == 4 && raw == [env, event] + fixed + [SourceTag(runningInConsole)]
    requires env != ConsoleTag && env != WebTag && event != ConsoleTag && event != WebTag
    requires ConsoleTag !in fixed && WebTag !in fixed
    ensures ConsoleTag in raw <==> runningInConsole
    ensures WebTag in raw <==> !runningInConsole
  {
    assert raw[6] == SourceTag(runningInConsole);
    forall i | 0 <= i < 6
      ensures raw[i] != ConsoleTag && raw[i] != WebTag
    {
      if i >= 2 {
        assert raw[i] == fixed[i - 2];
      }
    }
  }

  /** The environment name can collide with a source tag: with the
      environment called `web`, a console run carries both tags. */
  lemma SourceTagCollision(event: string, className: string, clock: Clock, auth: AuthState)
    ensures var tags := GenerateTags(WebTag, event, className, clock, auth, true);
      ConsoleTag in tags && WebTag in tags
  {
  }

  /** The environment name can collide with the actor tag: with the
      environment called `anonymous`, a record whose vendor is authenticated
      carries both `anonymous` and `user_type:vendor`. */
  lemma ActorTagCollision(event: string, className: string, clock: Clock, vendor: VendorAccount,
                          runningInConsole: bool)
    ensures var tags := GenerateTags(AnonymousTag, event, className, clock,
                                     AuthState(Some(vendor), None, None), runningInConsole);
      AnonymousTag in tags && UserTypePrefix + "vendor" in tags
  {
  }

  /** No fixed tag starts like an actor tag. */
  lemma FixedTagsAreNotActorTags(className: string, clock: Clock, runningInConsole: bool)
    ensures ModelTag(className) != AnonymousTag && !(UserTypePrefix <= ModelTag(className))
    ensures HourTag(clock.hour) != AnonymousTag && !(UserTypePrefix <= HourTag(clock.hour))
    ensures DayTag(clock.weekday) != AnonymousTag && !(UserTypePrefix <= DayTag(clock.weekday))
    ensures SourceTag(runningInConsole) != AnonymousTag && !(UserTypePrefix <= SourceTag(runningInConsole))
  {
    assert ModelTag(className)[0] == 'm';
    assert HourTag(clock.hour)[0] == 'h';
    assert DayTag(clock.weekday)[0] == 'd';
  }

  /** `anonymous` is present exactly when no guard is authenticated, and a
      `user_type:` tag is present exactly when one is, naming its type;
      provided the environment and the event look like neither. */
  lemma ExactlyOneActorTag(env: string, event: string, className: string, clock: Clock,
                           auth: AuthState, runningInConsole: bool)
    requires env != AnonymousTag && !(UserTypePrefix <= env)
    requires event != AnonymousTag && !(UserTypePrefix <= event)
    ensures var tags := GenerateTags(env, event, className, clock, auth, runningInConsole);
      var user := ResolveActor(auth);
      && (AnonymousTag in tags <==> user.None?)
      && (forall t :: t in tags && UserTypePrefix <= t ==> user.Some? && t == UserTypePrefix + user.value.Type())
  {
    var user := ResolveActor(auth);
    FixedTagsAreNotActorTags(className, clock, runningInConsole);
    ActorTagOf(user);
    ActorTagsAmong(RawTags(env, event, className, clock, user, runningInConsole), env, event,
                   [ModelTag(className), HourTag(clock.hour), DayTag(clock.weekday)],
                   ActorTag(user), SourceTag(runningInConsole), user);
  }

  /** The actor tag is `anonymous` or the type prefix, never both. */
  lemma ActorTagOf(user: Option<UserInfo>)
    ensures user.None? ==> ActorTag(user) == AnonymousTag && !(UserTypePrefix <= ActorTag(user))
    ensures user.Some? ==> ActorTag(user) != AnonymousTag && UserTypePrefix <= ActorTag(user)
  {
    if user.Some? {
      assert ActorTag(user)[0] == 'u';
    }
  }

  /** The actor-tag argument, with the other tags held abstract. */
  lemma ActorTagsAmong(raw: seq<string>, env: string, event: string, fixed: seq<string>,
                       actor: string, source: string, user: Option<UserInfo>)
    requires |fixed| == 3 && raw == [env, event] + fixed + [actor, source]
    requires actor == ActorTag(user)
    requires user.None? ==> actor == AnonymousTag && !(UserTypePrefix <= actor)
    requires user.Some? ==> actor != AnonymousTag && UserTypePrefix <= actor
    requires env != AnonymousTag && !(UserTypePrefix <= env)
    requires event != AnonymousTag && !(UserTypePrefix <= event)
    requires source != AnonymousTag && !(UserTypePrefix <= source)
    requires forall t :: t in fixed ==> t != AnonymousTag && !(UserTypePrefix <= t)
    ensures AnonymousTag in raw <==> user.None?
    ensures forall t :: t in raw && UserTypePrefix <= t ==> user.Some? && t == UserTypePrefix + user.value.Type()
  {
    assert raw[0] == env && raw[1] == event && raw[5] == actor && raw[6] == source;
    forall i | 0 <= i < |raw| && i != 5
      ensures raw[i] != AnonymousTag && !(UserTypePrefix <= raw[i])
    {
      if 2 <= i < 5 {
        assert raw[i] == fixed[i - 2] && fixed[i - 2] in fixed;
      }
    }
  }
}

=== FILE: text.dfy ===
/** Byte-string helpers standing in for the PHP built-ins the observer uses:
    `str_contains`, `strtolower`, and integer-to-string conversion.
    A PHP string is a sequence of bytes; here each `char` stands for one byte. */
module Text {

  /** `needle` occurs in `s` starting at offset `k`. */
  predicate OccursAt(s: string, needle: string, k: nat) {
    k + |needle| <= |s| && s[k..k + |needle|] == needle
  }

  /** Reference meaning of `str_contains`: some offset holds an occurrence. */
  ghost predicate HasSubstring(s: string, needle: string) {
    exists k: nat :: OccursAt(s, needle, k)
  }

  /** `str_contains`, as a left-to-right scan. The empty needle is found
      in every string, as in PHP 8. */
  function Contains(s: string, needle: string): (found: bool)
    ensures needle <= s ==> found
    ensures found ==> |needle| <= |s|
    decreases |s|
  {
    if needle <= s then true
    else if |s| == 0 then false
    else Contains(s[1..], needle)
  }

  /** The scan finds exactly the occurrences the reference definition admits. */
  lemma {:induction false} ContainsIsSubstring(s: string, needle: string)
    ensures Contains(s, needle) <==> HasSubstring(s, needle)
    decreases |s|
  {
    if needle <= s {
      assert OccursAt(s, needle, 0);
    } else if |s| == 0 {
      forall k: nat
        ensures !OccursAt(s, needle, k)
      {
      }
    } else {
      ContainsIsSubstring(s[1..], needle);
      SubstringOfTail(s, needle);
    }
  }

  /** Away from offset 0, occurrences in `s` are the occurrences in its tail. */
  lemma SubstringOfTail(s: string, needle: string)
    requires |s| > 0 && !(needle <= s)
    ensures HasSubstring(s, needle) <==> HasSubstring(s[1..], needle)
  {
    assert !OccursAt(s, needle, 0);
    if HasSubstring(s[1..], needle) {
      var k: nat :| OccursAt(s[1..], needle, k);
      ShiftOccurrence(s, needle, k);
    }
    if HasSubstring(s, needle) {
      var k: nat :| OccursAt(s, needle, k);
      assert k != 0;
      ShiftOccurrence(s, needle, k - 1);
    }
  }

  lemma ShiftOccurrence(s: string, needle: string, k: nat)
    requires |s| > 0
    ensures OccursAt(s[1..], needle, k) <==> OccursAt(s, needle, k + 1)
  {
    if k + 1 + |needle| <= |s| {
      assert s[1..][k..k + |needle|] == s[k + 1..k + 1 + |needle|];
    }
  }

  /** A needle holding a byte that `s` lacks does not occur in `s`. */
  lemma MissingByteNotContained(s: string, needle: string, j: nat)
    requires j < |needle| && needle[j] !in s
    ensures !HasSubstring(s, needle)
  {
    forall k: nat
      ensures !OccursAt(s, needle, k)
    {
      if k + |needle| <= |s| {
        assert s[k..k + |needle|][j] == s[k + j];
        assert s[k + j] in s;
      }
    }
  }

  predicate IsAsciiUpper(c: char) {
    'A' <= c <= 'Z'
  }

  /** `strtolower` on one byte: only ASCII capitals change (PHP 8.2 and later). */
  function LowerChar(c: char): char {
    if IsAsciiUpper(c) then (c as int + 32) as char else c
  }

  const LowerAlphabet: string := "abcdefghijklmnopqrstuvwxyz"

  /** `strtolower`: each ASCII capital becomes the letter at the same place
      in the lower-case alphabet; every other byte is kept. */
  function Lower(s: string): (r: string)
    ensures |r| == |s|
    ensures forall i :: 0 <= i < |r| ==> !IsAsciiUpper(r[i])
    ensures forall i :: 0 <= i < |s| && !IsAsciiUpper(s[i]) ==> r[i] == s[i]
    ensures forall i :: 0 <= i < |s| && IsAsciiUpper(s[i]) ==> r[i] == LowerAlphabet[s[i] as int - 'A' as int]
  {
    seq(|s|, i requires 0 <= i < |s| => LowerChar(s[i]))
  }

  predicate IsDigit(c: char) {
    '0' <= c <= '9'
  }

  predicate AllDigits(s: string) {
    forall i :: 0 <= i < |s| ==> IsDigit(s[i])
  }

  function DigitChar(d: nat): (c: char)
    requires d < 10
    ensures IsDigit(c)
  {
    ('0' as int + d) as char
  }

  /** Decimal notation of a natural number, without leading zeros. */
  function NatString(n: nat): (s: string)
    ensures 1 <= |s| && AllDigits(s)
    ensures n < 10 <==> |s| == 1
    ensures 10 <= n < 100 ==> |s| == 2
    ensures s[0] == '0' <==> n == 0
    ensures |s| > 1 ==> s[0] != '0'
    decreases n
  {
    if n < 10 then [DigitChar(n)] else NatString(n / 10) + [DigitChar(n % 10)]
  }

  /** Value of a string of decimal digits; the inverse of `NatString`. */
  function ParseNat(s: string): nat
    requires AllDigits(s)
    decreases |s|
  {
    if |s| == 0 then 0
    else ParseNat(s[..|s| - 1]) * 10 + (s[|s| - 1] as int - '0' as int)
  }

  lemma {:induction false} ParseNatString(n: nat)
    ensures ParseNat(NatString(n)) == n
    decreases n
  {
    if n >= 10 {
      var s := NatString(n);
      assert s[..|s| - 1] == NatString(n / 10);
      ParseNatString(n / 10);
    }
  }

  /** Decimal text as the integer cast writes it: an optional minus sign,
      then at least one digit, with no leading zero and no negative zero. */
  predicate CanonicalDecimal(s: string) {
    && 1 <= |s|
    && var digits := if s[0] == '-' then s[1..] else s;
       && 1 <= |digits| && AllDigits(digits)
       && (digits[0] == '0' ==> |digits| == 1 && s[0] != '-')
  }

  /** PHP's `(string)` cast of an integer. */
  function IntString(n: int): (s: string)
    ensures CanonicalDecimal(s)
    ensures n < 0 <==> s[0] == '-'
  {
    if n < 0 then "-" + NatString(-n) else NatString(n)
  }

  /** Reads back what `IntString` writes. */
  function ParseInt(s: string): int
    requires 1 <= |s|
    requires AllDigits(if s[0] == '-' then s[1..] else s)
  {
    if s[0] == '-' then -(ParseNat(s[1..]) as int) else ParseNat(s)
  }

  /** The integer cast loses nothing: its text reads back to the same number. */
  lemma IntStringRoundTrip(n: int)
    ensures AllDigits(if IntString(n)[0] == '-' then IntString(n)[1..] else IntString(n))
    ensures ParseInt(IntString(n)) == n
  {
    var s := IntString(n);
    if n < 0 {
      var digits := NatString(-n);
      assert s == "-" + digits;
      assert s[1..] == digits;
      ParseNatString(-n);
      assert ParseInt(s) == -(ParseNat(digits) as int);
    } else {
      assert s == NatString(n) && IsDigit(s[0]);
      ParseNatString(n);
      assert ParseInt(s) == ParseNat(s);
    }
  }

  /** A digit string without a leading zero (other than `0` itself) denotes
      a positive number unless it is `0`. */
  lemma {:induction false} LeadingDigitPositive(s: string)
    requires 1 <= |s| && AllDigits(s) && s[0] != '0'
    ensures ParseNat(s) >= 1
    decreases |s|
  {
    if |s| > 1 {
      LeadingDigitPositive(s[..|s| - 1]);
    }
  }

  /** `NatString` is the only digit string without a leading zero that
      denotes its number. */
  lemma {:induction false} NatStringOfParse(s: string)
    requires 1 <= |s| && AllDigits(s)
    requires s[0] == '0' ==> |s| == 1
    ensures NatString(ParseNat(s)) == s
    decreases |s|
  {
    if |s| > 1 {
      var init := s[..|s| - 1];
      LeadingDigitPositive(init);
      NatStringOfParse(init);
      var n := ParseNat(s);
      assert n / 10 == ParseNat(init) && n % 10 == s[|s| - 1] as int - '0' as int;
      assert s == init + [s[|s| - 1]];
    }
  }

  /** Canonical decimal text is exactly what the integer cast writes for the
      number it denotes. */
  lemma CanonicalDecimalIsIntString(s: string)
    requires CanonicalDecimal(s)
    ensures IntString(ParseInt(s)) == s
  {
    if s[0] == '-' {
      NatStringOfParse(s[1..]);
      LeadingDigitPositive(s[1..]);
      assert s == "-" + s[1..];
    } else {
      NatStringOfParse(s);
    }
  }

  /** Distinct integers cast to distinct strings. */
  lemma IntStringInjective(m: int, n: int)
    requires IntString(m) == IntString(n)
    ensures m == n
  {
    IntStringRoundTrip(m);
    IntStringRoundTrip(n);
  }

  /** A `date('H')`-style two-digit field. */
  function TwoDigits(n: nat): (s: string)
    requires n < 100
    ensures |s| == 2 && AllDigits(s)
    ensures ParseNat(s) == n
  {
    ParseNatString(n);
    if n < 10 then
      var s := "0" + NatString(n);
      assert s[..1] == "0";
      s
    else NatString(n)
  }
}

=== FILE: values.dfy ===
/** The values an entity attribute can hold, and PHP's ordered arrays of
    attributes, modelled as sequences of key/value entries. */
module Values {
  import opened Seqs
  import opened Text

  datatype Option<+T> = None | Some(value: T)

  /** An attribute value as the observer sees it. `Composite` stands for a PHP
      array or object and carries the text `json_encode` produces for it; `Uuid`
      is a UUID object, carrying its canonical text. */
  datatype Value =
    | Null
    | Bool(b: bool)
    | Int(i: int)
    | Str(s: string)
    | Composite(encoded: string)
    | Uuid(text: string)

  datatype Entry = Entry(key: string, value: Value)

  /** An ordered attribute array: iteration order is sequence order. */
  type Attrs = seq<Entry>

  function KeyOf(e: Entry): string {
    e.key
  }

  function Keys(a: Attrs): (ks: seq<string>)
    ensures |ks| == |a|
    ensures forall i :: 0 <= i < |a| ==> ks[i] == a[i].key
  {
    Map(a, KeyOf)
  }

  /** PHP array keys are unique. */
  ghost predicate UniqueKeys(a: Attrs) {
    Distinct(Keys(a))
  }

  /** The value stored under `key`, or null when the array has no such key. */
  function Lookup(a: Attrs, key: string): (v: Value)
    ensures key !in Keys(a) ==> v == Null
    ensures forall i :: 0 <= i < |a| && a[i].key == key && key !in Keys(a[..i]) ==> v == a[i].value
    decreases |a|
  {
    if |a| == 0 then Null
    else if a[0].key == key then a[0].value
    else
      assert forall i :: 1 <= i <= |a| ==> Keys(a[..i]) == [a[0].key] + Keys(a[1..][..i - 1]);
      Lookup(a[1..], key)
  }

  /** A primary key, of an entity or of a user account: an integer or a string. */
  datatype EntityKey = IntKey(n: int) | StringKey(s: string)

  /** `text` is what the string cast of `k` yields: the key itself for a string
      key, canonical decimal text reading back to the number for an integer
      key. */
  predicate ReadsBackAs(text: string, k: EntityKey) {
    match k
    case StringKey(s) => text == s
    case IntKey(n) => CanonicalDecimal(text) && ParseInt(text) == n
  }

  /** The string cast of a key. */
  function KeyText(k: EntityKey): (text: string)
    ensures ReadsBackAs(text, k)
  {
    match k
    case StringKey(s) => s
    case IntKey(n) => IntStringRoundTrip(n); IntString(n)
  }

  /** The string cast is the only text that reads back as a key. */
  lemma ReadsBackOnlyAsKeyText(text: string, k: EntityKey)
    ensures ReadsBackAs(text, k) <==> text == KeyText(k)
  {
    if k.IntKey? && ReadsBackAs(text, k) {
      CanonicalDecimalIsIntString(text);
    }
  }

  /** The state of an entity at the moment of a lifecycle event: its class
      name, key, current attributes, the attributes as loaded (`getOriginal`),
      and the attributes the last save changed (`getChanges`). */
  datatype Entity = Entity(
    className: string,
    key: EntityKey,
    attributes: Attrs,
    original: Attrs,
    changes: Attrs)
}
